=== FILE: README.md ===
# Nifty 50 SIP calculator — a Dafny model

This models the computational core of a single-page SIP (systematic investment
plan) calculator. The page takes four inputs: a monthly investment, a duration
in whole years, an expected annual return in percent and an inflation rate in
percent. The `calculations` memo in `src/components/Calculator.jsx` turns them
into a year-by-year projection. The "Export to Excel" button then writes that
projection out as comma-separated text.

Modules:

- `Wrappers` holds `Option`. `None` stands for the JavaScript `NaN` that the
  return percentage becomes when nothing has been invested (a 0 / 0 quotient).
- `Numeric` holds `Pow` for natural exponents and `PowInt` for any integer
  exponent. `Pow` stands for the per-year `Math.pow(1 + inflation/100, year)`.
  `PowInt` stands for the summary's `Math.pow(1 + inflation/100, durationYears)`,
  whose exponent may be zero or negative.
- `Projection` is the functional model of the memo:
  - `MonthStep` adds the contribution and then applies one month's growth.
  - `Months` and `YearStep` apply it 12 times a year.
  - `BalanceAtYear` runs whole years from zero.
  - `RecordOf` and `Records` build the yearly records.
  - `Project` returns the records together with the summary figures.
  - The lemmas prove:
    - invested equals contributions;
    - a zero return gives zero gains;
    - gains are never negative;
    - the value grows strictly from year to year;
    - the balance equals the closed form of a future-value annuity-due;
    - the per-record identities;
    - when the return percentage is NaN;
    - inflation never increases a value;
    - a worked one-year example.
- `ProjectionLoop` is the imperative algorithm as the source writes it: an
  outer loop over years and an inner loop over 12 months. It adds one guard,
  for a zero inflation base, which only occurs with no years. It is proved to
  compute exactly `Project`.
- `Text` holds:
  - decimal integer printing and parsing;
  - `Number.prototype.toFixed(2)` modelled on exact reals (`Fmt2`), with a
    parser that reads it back;
  - splitting and joining on a separator;
  - newline-terminated lines.
- `Export` builds the lines of the exported file. It proves three things:
  - the text splits back into exactly those lines;
  - every breakdown row splits into the seven columns of the header;
  - each amount of a breakdown row, the return percentage included, reads
    back within half a hundredth. The summary lines have no read-back lemma
    of their own.

All arithmetic is on exact `real`s. The source uses IEEE doubles, so the
model gives the values the code computes up to floating-point rounding.

The loop adds each month's contribution and then compounds. So 10,000 a month
at 12% for one year gives exactly 128,093.28043328941786781301 (proved in
`Projection.OneYearExample`).

## Model

| member | source | states |
|---|---|---|
| Projection.Project | src/components/Calculator.jsx:10-55 | There is one record per year 1..durationYears, and none for a duration of zero or less. The records are numbered consecutively from 1. The summary figures are those of the last year's record. When there are no years they are all zero, including at -100% inflation. |
| Projection.Records | src/components/Calculator.jsx:18-38 | The yearly list has one entry per year, in order. Entry i is the record of year i+1, computed from the balance after i+1 whole years. |
| ProjectionLoop.ComputeProjection | src/components/Calculator.jsx:10-55 | The nested year/month loops with their running totals compute exactly the functional projection `Project`: the same records and the same summary. |
| ProjectionLoop.RunYear | src/components/Calculator.jsx:19-22 | Twelve passes of "add the contribution, then grow the value by the monthly rate" equal one `YearStep` of the functional model. |
| Projection.MonthStep | src/components/Calculator.jsx:20-21 | One month adds exactly one contribution to the invested total. The gains grow by exactly one month's interest on the balance after that contribution. |
| Projection.BalanceAtYear | src/components/Calculator.jsx:18-22 | The balance after each pass of the outer loop: `YearStep` folded y times from zero. It has no contract of its own; the body is the definition. Its meaning is stated by `InvestedAfterYears`, `YearsAreMonths` and `AnnuityDueFormula`. |
| Projection.MakeRecord | src/components/Calculator.jsx:24-37 | A record carries its year and the balance's invested amount and value. Gains are value minus invested, and real gains are the adjusted value minus invested. The return percentage is NaN exactly when nothing is invested. The division at :26 is the body's definition, and `RecordFields` states its inverse. |
| Projection.ReturnPct | src/components/Calculator.jsx:34 | The return percentage is NaN exactly when the amount invested is zero. In a projection that only happens with zero gains, a 0 / 0 quotient (see ReturnPctNaN). Otherwise it is the number whose product with the amount invested is 100 times the gains. |
| Projection.InvestedAfterYears | src/components/Calculator.jsx:18-20 | After y whole years the amount invested is exactly 12·y monthly contributions, whatever the return rate. |
| Projection.TotalInvested | src/components/Calculator.jsx:18-41 | The summary's total invested is one contribution per month of the whole years run, and 0 for a duration of zero or less. |
| Projection.InvestedIsContributions | src/components/Calculator.jsx:18-41 | Two projections with the same monthly amount and duration have the same invested column and total, whatever their return and inflation. Year i+1 holds 12·(i+1) contributions. |
| Projection.ZeroReturnNoGains | src/components/Calculator.jsx:11-24 | With a 0% annual return, every year's value equals the amount invested. |
| Projection.GainsNonNegative | src/components/Calculator.jsx:18-24 | With non-negative contributions and return, no year's value falls below the amount invested, so nominal gains are never negative. |
| Projection.ValueStrictlyIncreasing | src/components/Calculator.jsx:18-32 | With a positive contribution and a non-negative return, the nominal value strictly increases from any year to every later year. |
| Projection.YearsAreMonths | src/components/Calculator.jsx:12-22 | Running y years of 12 months is the same as running `totalMonths` = 12·y monthly steps from zero. |
| Projection.MonthsClosedForm | src/components/Calculator.jsx:19-21 | After k monthly steps from zero, value·r = m·(1+r)·((1+r)^k − 1). This is the future-value annuity-due identity, and it holds for every rate including zero. |
| Projection.AnnuityDueFormula | src/components/Calculator.jsx:11-22 | For a non-zero monthly rate r, the value after y years equals m·(1+r)·((1+r)^(12y) − 1)/r, the closed form of an annuity-due over 12·y months. |
| Projection.RecordFields | src/components/Calculator.jsx:24-36 | In every record, gains = value − invested. The inflation-adjusted value multiplied by (1 + inflation/100)^year gives back the value. Real gains = adjusted value − invested. A numeric return percentage times invested is 100·gains. |
| Projection.ReturnPctNaN | src/components/Calculator.jsx:20-34 | A record's return percentage is NaN if and only if the monthly investment is zero. In that case value and gains are zero, so the quotient is 0 / 0. |
| Projection.InflationShrinks | src/components/Calculator.jsx:25-27 | With a non-negative inflation rate, the inflation-adjusted value never exceeds a non-negative nominal value, and real gains never exceed nominal gains. |
| Projection.OneYearExample | src/components/Calculator.jsx:10-45 | 10,000 a month for one year at 12% with 6% inflation: one record, 120,000 invested, final value 128,093.28043328941786781301, and the adjusted value times 1.06 equals the final value. |
| Numeric.Pow | src/components/Calculator.jsx:26 | A power of a non-zero base is non-zero, of a positive base is positive, and of a base of at least one is at least one. |
| Numeric.PowInt | src/components/Calculator.jsx:43-44 | `Math.pow` with an integer exponent: it agrees with `Pow` for non-negative exponents and is the reciprocal of `Pow(b, -n)` for negative ones, so it is never zero. |
| Text.Fmt2 | src/components/Calculator.jsx:77-103 | `toFixed(2)` on exact reals. Its contract says the text holds no comma, newline or `%`, so it fits in one CSV cell. What the text means is `Fmt2RoundTrip` and `FixedAbsValue`. |
| Text.Fmt2RoundTrip | src/components/Calculator.jsx:77-103 | `toFixed(2)` prints an optional minus sign, digits, a point and two digits. Reading that text back gives the number to within 0.005. |
| Text.FixedAbsValue | src/components/Calculator.jsx:99-103 | For a non-negative amount, the printed text reads back as the amount rounded to the nearest hundredth, with ties going up. |
| Text.IntTextRoundTrip | src/components/Calculator.jsx:72 | The decimal text of an integer (the year, the duration) is well formed and parses back to the same integer. |
| Text.LinesRoundTrip | src/components/Calculator.jsx:69-103 | Writing lines that contain no newline, each followed by `\n`, and splitting the text back at newlines gives exactly those lines. |
| Export.PctText | src/components/Calculator.jsx:103 | The return cell always ends in `%`, and holds neither a comma nor a newline, including when the percentage is NaN. |
| Export.PctTextReadBack | src/components/Calculator.jsx:103 | The return cell is `NaN%` when the percentage is NaN. Otherwise the text before the `%` is a two-decimal number within 0.005 of the percentage. |
| Export.InputLines | src/components/Calculator.jsx:70-74 | The input block: its heading, then the monthly amount, the duration, the return rate and the inflation rate, then a blank line. It has no contract of its own; the body is the definition. `ExportShape` and `ExportLinesRoundTrip` fix its line count and position, not its content. |
| Export.SummaryLines | src/components/Calculator.jsx:76-91 | The summary block: its heading, the five summary figures printed by `toFixed(2)`, then a blank line. It has no contract of its own; the body is the definition. `ExportShape` and `ExportLinesRoundTrip` fix its line count and position, not its content. |
| Export.Row | src/components/Calculator.jsx:99-103 | A breakdown row is the seven cells joined by commas, on a single line. `RowSplit` and `RowCells` state how it reads back. |
| Export.Rows | src/components/Calculator.jsx:98-104 | There is one breakdown row per yearly record, in the records' order. |
| Export.RowSplit | src/components/Calculator.jsx:99-103 | A breakdown row splits on commas into exactly its seven cells, so no cell leaks a comma into a neighbour. |
| Export.RowCells | src/components/Calculator.jsx:99-103 | A row splits back into the year as an integer, five amounts each within 0.005 of the record's field, and the return cell. That cell is `NaN%` for NaN, or a percentage within 0.005 followed by `%`. |
| Export.HeaderCells | src/components/Calculator.jsx:95-103 | The column header is one line that splits into the seven column names. Every breakdown row has exactly as many cells as the header. |
| Export.BreakdownSection | src/components/Calculator.jsx:94-104 | The breakdown reads back as the heading, the column header and one row per record in order: 2 + (number of years) lines. |
| Export.ExportLinesRoundTrip | src/components/Calculator.jsx:66-104 | When the printed input numbers hold no newline, the exported text splits back at newlines into exactly the lines written. |
| Export.ExportShape | src/components/Calculator.jsx:65-104 | The export has 17 + durationYears lines, and 17 when there are no years. The title comes first, the breakdown heading and column header are lines 15 and 16, and the yearly rows follow in order. |
| Export.ExportRowYears | src/components/Calculator.jsx:98-104 | Line 17 + i of the export is the row of year i + 1, and its first cell reads back as that year. |

## Left out

- Projection.Project: requires `Defined`, which excludes an inflation of exactly -100% combined with a duration of at least one year. There `Math.pow(0, year)` is 0, and JavaScript produces `Infinity` or `NaN` for the inflation-adjusted figures, which the model does not represent. With a duration of zero or less and -100% inflation, the source divides a zero final value by `Math.pow(0, durationYears)`, which is 1 or `Infinity`. The figures are then all zero, and the model covers that case.
- Projection.Project: the duration is an integer. A fractional duration typed into the input would run `floor(duration)` loop iterations (for a positive duration), while the summary divides by a fractional power. That case is not modelled.
- Floating point: every amount is an exact real, so IEEE-754 double rounding in the monthly compounding, the division and `Math.pow` is not modelled.
- Text.Fmt2: does not model the exponential notation that `toFixed` uses for magnitudes of 1e21 or more. Rounding ties are decided on the exact real rather than on the double's binary value.
- Export.InputLines: how JavaScript prints a non-integer number (`Number.prototype.toString`) is not modelled. The three real inputs are printed by a caller-supplied function `numText`.
- Export.ExportShape: the line count and the positions hold only when `numText` prints no newline, which is a precondition of the lemma.
- The `data:text/csv;charset=utf-8,` prefix, `encodeURI`, the DOM link, the file name and the click that starts the download are browser I/O and are left out.
- `formatCurrency` (`Intl.NumberFormat` in the en-IN locale), the React state, the input handlers and the JSX rendering are presentation and are left out.
- Idempotence and determinism of the memo are immediate for a pure Dafny function and carry no separate lemma.

=== FILE: export.dfy ===
/** The text of the "Export to Excel" download: title, input parameters,
    summary and the year-wise breakdown, one newline-terminated line each. */
module Export {
  import opened Wrappers
  import opened Projection
  import opened Text

  const Title := "Nifty 50 SIP Calculator"
  const BreakdownHeading := "Year-wise Breakdown:"
  const ColumnNames := ["Year", "Total Invested", "Nominal Value", "Nominal Gains",
                        "Inflation Adjusted Value", "Real Gains", "Return %"]
  const ColumnHeader := Join(ColumnNames, ',')

  /** The return column: two decimals and a percent sign; `NaN` prints as
      `NaN`. */
  function PctText(p: Option<real>): (s: string)
    ensures |s| >= 1 && s[|s| - 1] == '%'
    ensures ',' !in s && '\n' !in s
  {
    match p
    case Some(v) => Fmt2(v) + "%"
    case None => "NaN%"
  }

  /** The return cell reads back: `NaN%` for `NaN`, otherwise the text before
      the `%` is the percentage to within half a hundredth. */
  lemma PctTextReadBack(p: Option<real>)
    ensures var s := PctText(p);
      && (p.None? ==> s == "NaN%")
      && (p.Some? ==>
            && IsFixed2(s[..|s| - 1])
            && -0.005 <= ParseFixed2(s[..|s| - 1]) - p.value <= 0.005)
  {
    if p.Some? {
      Fmt2RoundTrip(p.value);
      assert (Fmt2(p.value) + "%")[..|Fmt2(p.value)|] == Fmt2(p.value);
    }
  }

  /** The seven cells of one breakdown row, in column order. */
  function RowFields(rec: YearRecord): seq<string> {
    [IntText(rec.year), Fmt2(rec.invested), Fmt2(rec.value), Fmt2(rec.gains),
     Fmt2(rec.inflationAdjustedValue), Fmt2(rec.realGains), PctText(rec.returnPct)]
  }

  /** One breakdown row: the cells separated by commas. */
  function Row(rec: YearRecord): (s: string)
    ensures '\n' !in s
  {
    var fs := RowFields(rec);
    JoinAvoids(fs, ',', '\n');
    Join(fs, ',')
  }

  function Rows(yearly: seq<YearRecord>): (rows: seq<string>)
    ensures |rows| == |yearly|
    ensures forall i :: 0 <= i < |rows| ==> rows[i] == Row(yearly[i])
  {
    if yearly == [] then [] else [Row(yearly[0])] + Rows(yearly[1..])
  }

  function BreakdownLines(yearly: seq<YearRecord>): seq<string> {
    [BreakdownHeading, ColumnHeader] + Rows(yearly)
  }

  function SummaryLines(p: Projected): seq<string> {
    [ "Summary:",
      "Total Investment," + Fmt2(p.totalInvestedAmount),
      "Final Value (Nominal)," + Fmt2(p.finalValue),
      "Total Gains (Nominal)," + Fmt2(p.totalGains),
      "Final Value (Inflation Adjusted)," + Fmt2(p.inflationAdjustedFinalValue),
      "Real Gains (After Inflation)," + Fmt2(p.realGains),
      "" ]
  }

  /** The input block. How JavaScript prints a non-integer number is not
      modelled, so the caller supplies `numText` for the three real inputs;
      the duration is an integer and printed as one. */
  function InputLines(input: Input, numText: real -> string): seq<string> {
    [ "Input Parameters:",
      "Monthly Investment," + numText(input.monthly),
      "Duration (Years)," + IntText(input.years),
      "Expected Annual Return," + numText(input.annualReturn) + "%",
      "Inflation Rate," + numText(input.inflation) + "%",
      "" ]
  }

  function ExportLines(input: Input, p: Projected, numText: real -> string): seq<string> {
    [Title, ""] + InputLines(input, numText) + SummaryLines(p) + BreakdownLines(p.yearlyData)
  }

  /** The exported text for the projection of `input`. */
  function ExportText(input: Input, numText: real -> string): string
    requires Defined(input)
  {
    JoinLines(ExportLines(input, Project(input), numText))
  }

  // ---------------------------------------------------------------------

  /** A row splits on commas into exactly its seven cells. */
  lemma RowSplit(rec: YearRecord)
    ensures Split(Row(rec), ',') == RowFields(rec)
  {
    var fs := RowFields(rec);
    assert forall i :: 0 <= i < |fs| ==> ',' !in fs[i];
    SplitJoin(fs, ',');
  }

  /** A row splits back into exactly seven cells: the year, five amounts that
      read back to within half a hundredth of the record's, and the return
      cell: `NaN%`, or a percentage that reads back to within half a
      hundredth followed by `%`. */
  lemma RowCells(rec: YearRecord)
    ensures
      var cells := Split(Row(rec), ',');
      && |cells| == 7
      && IsIntText(cells[0]) && ParseInt(cells[0]) == rec.year
      && IsFixed2(cells[1]) && -0.005 <= ParseFixed2(cells[1]) - rec.invested <= 0.005
      && IsFixed2(cells[2]) && -0.005 <= ParseFixed2(cells[2]) - rec.value <= 0.005
      && IsFixed2(cells[3]) && -0.005 <= ParseFixed2(cells[3]) - rec.gains <= 0.005
      && IsFixed2(cells[4])
      && -0.005 <= ParseFixed2(cells[4]) - rec.inflationAdjustedValue <= 0.005
      && IsFixed2(cells[5]) && -0.005 <= ParseFixed2(cells[5]) - rec.realGains <= 0.005
      && |cells[6]| >= 1 && cells[6][|cells[6]| - 1] == '%'
      && (rec.returnPct.None? ==> cells[6] == "NaN%")
      && (rec.returnPct.Some? ==>
            && IsFixed2(cells[6][..|cells[6]| - 1])
            && -0.005 <= ParseFixed2(cells[6][..|cells[6]| - 1]) - rec.returnPct.value <= 0.005)
  {
    RowSplit(rec);
    IntTextRoundTrip(rec.year);
    Fmt2RoundTrip(rec.invested);
    Fmt2RoundTrip(rec.value);
    Fmt2RoundTrip(rec.gains);
    Fmt2RoundTrip(rec.inflationAdjustedValue);
    Fmt2RoundTrip(rec.realGains);
    PctTextReadBack(rec.returnPct);
  }

  /** The breakdown section reads back as its heading, the column header and
      one row per record, in order: `2 + |yearly|` lines. */
  lemma BreakdownSection(yearly: seq<YearRecord>)
    ensures
      var ls := LinesOf(JoinLines(BreakdownLines(yearly)));
      && |ls| == 2 + |yearly|
      && ls[0] == BreakdownHeading && ls[1] == ColumnHeader
      && forall i :: 0 <= i < |yearly| ==> ls[2 + i] == Row(yearly[i])
  {
    BreakdownSingleLines(yearly);
    LinesRoundTrip(BreakdownLines(yearly));
  }

  /** The column header has the same seven cells as every row. */
  lemma HeaderCells()
    ensures '\n' !in ColumnHeader
    ensures Split(ColumnHeader, ',') == ColumnNames
    ensures forall rec: YearRecord :: |Split(Row(rec), ',')| == |Split(ColumnHeader, ',')|
  {
    ColumnNamesPlain();
    JoinAvoids(ColumnNames, ',', '\n');
    SplitJoin(ColumnNames, ',');
    forall rec: YearRecord
      ensures |Split(Row(rec), ',')| == |Split(ColumnHeader, ',')|
    {
      RowSplit(rec);
    }
  }

  // ---------------------------------------------------------------------
  // Every line of the export is free of newlines

  /** A cell that can neither end a line nor split into two cells. */
  predicate PlainCell(s: string) {
    '\n' !in s && ',' !in s
  }

  /** No column name holds a newline or a comma. */
  lemma ColumnNamesPlain()
    ensures forall i :: 0 <= i < |ColumnNames| ==> PlainCell(ColumnNames[i])
  {
    assert PlainCell("Year") && PlainCell("Total Invested");
    assert PlainCell("Nominal Value") && PlainCell("Nominal Gains");
    LongColumnNamesPlain();
  }

  /** The last three column names hold no newline or comma. */
  lemma LongColumnNamesPlain()
    ensures PlainCell("Inflation Adjusted Value") && PlainCell("Real Gains")
    ensures PlainCell("Return %")
  {
  }

  lemma RowsSingleLines(yearly: seq<YearRecord>)
    ensures SingleLines(Rows(yearly))
  {
    var rows := Rows(yearly);
    forall i | 0 <= i < |rows|
      ensures '\n' !in rows[i]
    {
      assert rows[i] == Row(yearly[i]);
    }
  }

  lemma BreakdownSingleLines(yearly: seq<YearRecord>)
    ensures SingleLines(BreakdownLines(yearly))
  {
    HeaderCells();
    assert '\n' !in BreakdownHeading;
    assert SingleLines([BreakdownHeading, ColumnHeader]);
    RowsSingleLines(yearly);
    SingleLinesConcat([BreakdownHeading, ColumnHeader], Rows(yearly));
  }

  lemma SingleLinesConcat(a: seq<string>, b: seq<string>)
    requires SingleLines(a) && SingleLines(b)
    ensures SingleLines(a + b)
  {
    assert forall i :: 0 <= i < |b| ==> (a + b)[|a| + i] == b[i];
  }

  /** The fixed captions of the input block hold no newline. */
  lemma InputCaptionsPlain()
    ensures '\n' !in "Input Parameters:" && '\n' !in "Monthly Investment,"
    ensures '\n' !in "Duration (Years)," && '\n' !in "%" && '\n' !in ""
    ensures '\n' !in "Expected Annual Return," && '\n' !in "Inflation Rate,"
  {
  }

  lemma InputSingleLines(input: Input, numText: real -> string)
    requires '\n' !in numText(input.monthly)
    requires '\n' !in numText(input.annualReturn)
    requires '\n' !in numText(input.inflation)
    ensures SingleLines(InputLines(input, numText))
  {
    InputCaptionsPlain();
  }

  /** The fixed captions of the summary block hold no newline. */
  lemma SummaryCaptionsPlain()
    ensures '\n' !in "Summary:" && '\n' !in ""
    ensures '\n' !in "Total Investment," && '\n' !in "Final Value (Nominal),"
    ensures '\n' !in "Total Gains (Nominal),"
    ensures '\n' !in "Final Value (Inflation Adjusted),"
    ensures '\n' !in "Real Gains (After Inflation),"
  {
  }

  lemma SummarySingleLines(p: Projected)
    ensures SingleLines(SummaryLines(p))
  {
    SummaryCaptionsPlain();
  }

  lemma HeadSingleLines(input: Input, p: Projected, numText: real -> string)
    requires '\n' !in numText(input.monthly)
    requires '\n' !in numText(input.annualReturn)
    requires '\n' !in numText(input.inflation)
    ensures SingleLines([Title, ""] + InputLines(input, numText) + SummaryLines(p))
  {
    assert '\n' !in Title;
    assert SingleLines([Title, ""]);
    InputSingleLines(input, numText);
    SummarySingleLines(p);
    SingleLinesConcat([Title, ""], InputLines(input, numText));
    SingleLinesConcat([Title, ""] + InputLines(input, numText), SummaryLines(p));
  }

  // ---------------------------------------------------------------------
  // The shape of the whole export

  /** The export's text reads back as exactly its lines. */
  lemma ExportLinesRoundTrip(input: Input, p: Projected, numText: real -> string)
    requires '\n' !in numText(input.monthly)
    requires '\n' !in numText(input.annualReturn)
    requires '\n' !in numText(input.inflation)
    ensures LinesOf(JoinLines(ExportLines(input, p, numText))) == ExportLines(input, p, numText)
  {
    var head := [Title, ""] + InputLines(input, numText) + SummaryLines(p);
    HeadSingleLines(input, p, numText);
    BreakdownSingleLines(p.yearlyData);
    SingleLinesConcat(head, BreakdownLines(p.yearlyData));
    LinesRoundTrip(ExportLines(input, p, numText));
  }

  /** Where each part sits among the export's lines. */
  lemma ExportLinesLayout(input: Input, p: Projected, numText: real -> string)
    ensures
      var ls := ExportLines(input, p, numText);
      && |ls| == 17 + |p.yearlyData|
      && ls[0] == Title
      && ls[15] == BreakdownHeading && ls[16] == ColumnHeader
      && ls[17..] == Rows(p.yearlyData)
  {
    var head := [Title, ""] + InputLines(input, numText) + SummaryLines(p);
    var top := head + [BreakdownHeading, ColumnHeader];
    assert head + ([BreakdownHeading, ColumnHeader] + Rows(p.yearlyData))
        == top + Rows(p.yearlyData);
    assert |top| == 17;
    assert (top + Rows(p.yearlyData))[|top|..] == Rows(p.yearlyData);
  }

  /** Rows of the export sit after its 17 fixed lines. */
  lemma RowLines(ls: seq<string>, yearly: seq<YearRecord>)
    requires |ls| == 17 + |yearly| && ls[17..] == Rows(yearly)
    requires forall i :: 0 <= i < |yearly| ==> yearly[i].year == i + 1
    ensures forall i :: 0 <= i < |yearly| ==>
      && ls[17 + i] == Row(yearly[i])
      && IsIntText(Split(ls[17 + i], ',')[0])
      && ParseInt(Split(ls[17 + i], ',')[0]) == i + 1
  {
    forall i | 0 <= i < |yearly|
      ensures ls[17 + i] == Row(yearly[i])
      ensures IsIntText(Split(ls[17 + i], ',')[0])
      ensures ParseInt(Split(ls[17 + i], ',')[0]) == i + 1
    {
      assert ls[17 + i] == ls[17..][i] == Rows(yearly)[i];
      RowStartsWithYear(yearly[i]);
    }
  }

  lemma RowStartsWithYear(rec: YearRecord)
    ensures IsIntText(Split(Row(rec), ',')[0])
    ensures ParseInt(Split(Row(rec), ',')[0]) == rec.year
  {
    RowSplit(rec);
    IntTextRoundTrip(rec.year);
  }

  /** When the three caller-rendered numbers hold no newline, the export has
      `17 + durationYears` lines (none of the breakdown for a duration of zero
      or less): title first, then the breakdown heading and column header at
      lines 15 and 16, then one row per yearly record, in order. */
  lemma ExportShape(input: Input, numText: real -> string)
    requires Defined(input)
    requires '\n' !in numText(input.monthly)
    requires '\n' !in numText(input.annualReturn)
    requires '\n' !in numText(input.inflation)
    ensures
      var ls := LinesOf(ExportText(input, numText));
      var n := |Project(input).yearlyData|;
      && |ls| == 17 + n
      && (input.years >= 0 ==> n == input.years)
      && ls[0] == Title
      && ls[15] == BreakdownHeading && ls[16] == ColumnHeader
      && ls[17..] == Rows(Project(input).yearlyData)
  {
    var p := Project(input);
    ExportLinesRoundTrip(input, p, numText);
    ExportLinesLayout(input, p, numText);
  }

  /** Line `17 + i` of the export is the row of year `i + 1`, and its first
      cell reads back as that year. */
  lemma ExportRowYears(input: Input, numText: real -> string)
    requires Defined(input)
    requires '\n' !in numText(input.monthly)
    requires '\n' !in numText(input.annualReturn)
    requires '\n' !in numText(input.inflation)
    ensures
      var ls := LinesOf(ExportText(input, numText));
      && |ls| == 17 + |Project(input).yearlyData|
      && forall i :: 0 <= i < |Project(input).yearlyData| ==>
        && ls[17 + i] == Row(Project(input).yearlyData[i])
        && IsIntText(Split(ls[17 + i], ',')[0])
        && ParseInt(Split(ls[17 + i], ',')[0]) == i + 1
  {
    var ls := LinesOf(ExportText(input, numText));
    var yearly := Project(input).yearlyData;
    ExportShape(input, numText);
    assert |ls| == 17 + |yearly| && ls[17..] == Rows(yearly);
    RowLines(ls, yearly);
  }
}

=== FILE: numeric.dfy ===
/** Exact powers over the reals, standing in for `Math.pow` called with a
    whole-number exponent. */
module Numeric {

  /** `b` raised to the natural power `n`. */
  function Pow(b: real, n: nat): (r: real)
    ensures b != 0.0 ==> r != 0.0
    ensures b > 0.0 ==> r > 0.0
    ensures b >= 1.0 ==> r >= 1.0
  {
    if n == 0 then 1.0
    else
      var p := Pow(b, n - 1);
      assert b > 0.0 ==> b * p > 0.0 by {
        if b > 0.0 { MulPositive(b, p); }
      }
      assert b >= 1.0 ==> b * p >= 1.0 by {
        if b >= 1.0 { MulAtLeastOne(b, p); }
      }
      b * p
  }

  /** `b` raised to the integer power `n`; a negative exponent yields the
      reciprocal, as `Math.pow` does. */
  function PowInt(b: real, n: int): (r: real)
    requires b != 0.0
    ensures r != 0.0
    ensures n >= 0 ==> r == Pow(b, n)
    ensures n < 0 ==> r * Pow(b, -n) == 1.0
  {
    if n >= 0 then Pow(b, n) else 1.0 / Pow(b, -n)
  }

  lemma MulPositive(a: real, b: real)
    requires a > 0.0 && b > 0.0
    ensures a * b > 0.0
  {
  }

  lemma MulAtLeastOne(a: real, b: real)
    requires a >= 1.0 && b >= 1.0
    ensures a * b >= 1.0
  {
    assert a * b - 1.0 == (a - 1.0) * b + (b - 1.0);
    MulNonNegative(a - 1.0, b);
  }

  lemma MulNonNegative(a: real, b: real)
    requires a >= 0.0 && b >= 0.0
    ensures a * b >= 0.0
  {
  }

  /** Dividing a non-negative amount by a factor of at least one cannot
      increase it. */
  lemma DivideByAtLeastOne(x: real, d: real)
    requires x >= 0.0 && d >= 1.0
    ensures x / d <= x
  {
    var q := x / d;
    assert q * d == x;
    assert q >= 0.0;
    assert x - q == q * (d - 1.0);
    MulNonNegative(q, d - 1.0);
  }
}

=== FILE: projection.dfy ===
/** The projection engine of the SIP calculator: a fixed monthly
    contribution, compounded monthly, reported once a year together with its
    inflation-adjusted worth. Amounts are exact reals. */
module Projection {
  import opened Wrappers
  import opened Numeric

  /** The four scalars the engine reads. */
  datatype Input = Input(
    monthly: real,       // monthly investment
    years: int,          // duration in years
    annualReturn: real,  // expected annual return, percent
    inflation: real      // inflation rate, percent per year
  )

  /** Running totals of the compounding loop. */
  datatype Balance = Balance(invested: real, value: real)

  /** One entry of the year-wise breakdown. `returnPct` is `None` where the
      source divides 0 by 0 and obtains `NaN`. */
  datatype YearRecord = YearRecord(
    year: int,
    invested: real,
    value: real,
    gains: real,
    returnPct: Option<real>,
    inflationAdjustedValue: real,
    realGains: real
  )

  /** What the engine returns: the breakdown and the summary figures. */
  datatype Projected = Projected(
    yearlyData: seq<YearRecord>,
    finalValue: real,
    totalInvestedAmount: real,
    totalGains: real,
    inflationAdjustedFinalValue: real,
    realGains: real
  )

  const Start := Balance(0.0, 0.0)

  /** Monthly rate from an annual percentage. */
  function MonthlyRate(annualReturn: real): real {
    annualReturn / 12.0 / 100.0
  }

  /** Yearly discount factor from an inflation percentage. */
  function InflationBase(inflation: real): real {
    1.0 + inflation / 100.0
  }

  /** One month: the contribution is paid in, then the whole balance earns
      one month of return. The invested total grows by the contribution and
      the gains by the month's interest on the balance after it. */
  function MonthStep(b: Balance, m: real, rate: real): (r: Balance)
    ensures r.invested == b.invested + m
    ensures r.value - r.invested == (b.value - b.invested) + (b.value + m) * rate
  {
    Balance(b.invested + m, (b.value + m) * (1.0 + rate))
  }

  /** `k` consecutive months starting from `b`. */
  function Months(b: Balance, m: real, rate: real, k: nat): Balance {
    if k == 0 then b else MonthStep(Months(b, m, rate, k - 1), m, rate)
  }

  /** One year is twelve months. */
  function YearStep(b: Balance, m: real, rate: real): Balance {
    Months(b, m, rate, 12)
  }

  /** The balance at the end of year `y`, folding `YearStep` from zero. */
  function BalanceAtYear(m: real, rate: real, y: nat): Balance {
    if y == 0 then Start else YearStep(BalanceAtYear(m, rate, y - 1), m, rate)
  }

  /** The return percentage `gains / invested * 100`, `None` when nothing
      is invested. In a projection nothing is invested only when the gains are
      zero too (`ReturnPctNaN`), so `None` is JavaScript's 0 / 0 = `NaN`; the
      infinities a non-zero gain over zero would give never arise. */
  function ReturnPct(gains: real, invested: real): (r: Option<real>)
    ensures r.None? <==> invested == 0.0
    ensures r.Some? ==> r.value * invested == gains * 100.0
  {
    if invested == 0.0 then None else Some(gains / invested * 100.0)
  }

  /** The record emitted after year `year` from the balance reached then:
      gains are value minus invested, real gains are the inflation-adjusted
      value minus invested, and the return percentage is `NaN` exactly when
      nothing is invested. `RecordFields` adds the identities that relate the
      quotients back to their operands. */
  function MakeRecord(year: nat, b: Balance, inflation: real): (r: YearRecord)
    requires inflation != -100.0
    ensures r.year == year && r.invested == b.invested && r.value == b.value
    ensures r.gains == r.value - r.invested
    ensures r.realGains == r.inflationAdjustedValue - r.invested
    ensures r.returnPct.None? <==> r.invested == 0.0
  {
    var gains := b.value - b.invested;
    var adjusted := b.value / Pow(InflationBase(inflation), year);
    YearRecord(year, b.invested, b.value, gains, ReturnPct(gains, b.invested),
               adjusted, adjusted - b.invested)
  }

  /** The record of year `y` of a projection. */
  function RecordOf(input: Input, y: nat): YearRecord
    requires input.inflation != -100.0
  {
    MakeRecord(y, BalanceAtYear(input.monthly, MonthlyRate(input.annualReturn), y), input.inflation)
  }

  /** The breakdown for years 1 through `n`, in ascending order. */
  function Records(input: Input, n: nat): (r: seq<YearRecord>)
    requires n == 0 || input.inflation != -100.0
    ensures |r| == n
    ensures forall i :: 0 <= i < n ==> r[i].year == i + 1
    ensures forall i :: 0 <= i < n ==> r[i] == RecordOf(input, i + 1)
  {
    if n == 0 then [] else Records(input, n - 1) + [RecordOf(input, n)]
  }

  /** The inputs whose projection is finite. With at least one year and an
      inflation of -100% the source divides by `Math.pow(0, year) == 0` and
      obtains `Infinity` or `NaN`; with no years its figures are all zero. */
  predicate Defined(input: Input) {
    input.years >= 1 ==> input.inflation != -100.0
  }

  /** The whole projection: the breakdown for years 1 through the duration
      and the summary figures. */
  function Project(input: Input): (r: Projected)
    requires Defined(input)
    ensures input.years >= 0 ==> |r.yearlyData| == input.years
    ensures input.years <= 0 ==> r.yearlyData == []
    ensures forall i :: 0 <= i < |r.yearlyData| ==> r.yearlyData[i].year == i + 1
    ensures input.years >= 1 ==>
      var last := r.yearlyData[|r.yearlyData| - 1];
      && r.finalValue == last.value
      && r.totalInvestedAmount == last.invested
      && r.totalGains == last.gains
      && r.inflationAdjustedFinalValue == last.inflationAdjustedValue
      && r.realGains == last.realGains
    ensures input.years <= 0 ==>
      && r.finalValue == 0.0
      && r.totalInvestedAmount == 0.0
      && r.totalGains == 0.0
      && r.inflationAdjustedFinalValue == 0.0
      && r.realGains == 0.0
  {
    var n: nat := if input.years < 0 then 0 else input.years;
    var fin := BalanceAtYear(input.monthly, MonthlyRate(input.annualReturn), n);
    var base := InflationBase(input.inflation);
    // A zero base means no years (`Defined`), so the nominal value is 0 and
    // the source's quotient is 0 / Math.pow(0, years), which is 0 / 1 or
    // 0 / Infinity, both 0.
    var adjusted := if base == 0.0 then 0.0 else fin.value / PowInt(base, input.years);
    Projected(Records(input, n), fin.value, fin.invested, fin.value - fin.invested,
              adjusted, adjusted - fin.invested)
  }

  // ---------------------------------------------------------------------
  // Contributions

  /** Each month adds exactly one contribution. */
  lemma {:induction false} MonthsInvested(b: Balance, m: real, rate: real, k: nat)
    ensures Months(b, m, rate, k).invested == b.invested + m * k as real
  {
    if k > 0 {
      MonthsInvested(b, m, rate, k - 1);
    }
  }

  /** After `y` years exactly `12 * y` contributions have been paid in,
      whatever the rate. */
  lemma {:induction false} InvestedAfterYears(m: real, rate: real, y: nat)
    ensures BalanceAtYear(m, rate, y).invested == m * 12.0 * y as real
  {
    if y > 0 {
      InvestedAfterYears(m, rate, y - 1);
      MonthsInvested(BalanceAtYear(m, rate, y - 1), m, rate, 12);
    }
  }

  /** Every record's `invested` is `monthly * 12 * year`; in particular it is
      the same for any two return and inflation rates. */
  lemma InvestedIsContributions(a: Input, b: Input)
    requires Defined(a) && Defined(b)
    requires a.monthly == b.monthly && a.years == b.years
    ensures forall i :: 0 <= i < |Project(a).yearlyData| ==>
      && Project(a).yearlyData[i].invested == a.monthly * 12.0 * (i + 1) as real
      && Project(a).yearlyData[i].invested == Project(b).yearlyData[i].invested
    ensures Project(a).totalInvestedAmount == Project(b).totalInvestedAmount
  {
    var pa, pb := Project(a), Project(b);
    forall i | 0 <= i < |pa.yearlyData|
      ensures pa.yearlyData[i].invested == a.monthly * 12.0 * (i + 1) as real
      ensures pa.yearlyData[i].invested == pb.yearlyData[i].invested
    {
      RecordInvested(a, i);
      RecordInvested(b, i);
    }
    TotalInvested(a);
    TotalInvested(b);
  }

  /** The record of year `i + 1` holds `12 * (i + 1)` contributions. */
  lemma RecordInvested(input: Input, i: nat)
    requires Defined(input) && i < |Project(input).yearlyData|
    ensures Project(input).yearlyData[i].invested == input.monthly * 12.0 * (i + 1) as real
  {
    assert Project(input).yearlyData[i] == RecordOf(input, i + 1);
    InvestedAfterYears(input.monthly, MonthlyRate(input.annualReturn), i + 1);
  }

  /** The summary's invested total holds one contribution per month of the
      whole years run. */
  lemma TotalInvested(input: Input)
    requires Defined(input)
    ensures var n: nat := if input.years < 0 then 0 else input.years;
      Project(input).totalInvestedAmount == input.monthly * 12.0 * n as real
  {
    var n: nat := if input.years < 0 then 0 else input.years;
    InvestedAfterYears(input.monthly, MonthlyRate(input.annualReturn), n);
  }

  // ---------------------------------------------------------------------
  // Compounding

  /** With no return the value is just the money paid in. */
  lemma {:induction false} ZeroRateMonths(b: Balance, m: real, k: nat)
    requires b.value == b.invested
    ensures Months(b, m, 0.0, k).value == Months(b, m, 0.0, k).invested
  {
    if k > 0 {
      ZeroRateMonths(b, m, k - 1);
    }
  }

  lemma {:induction false} ZeroRateYears(m: real, y: nat)
    ensures BalanceAtYear(m, 0.0, y).value == BalanceAtYear(m, 0.0, y).invested
  {
    if y > 0 {
      ZeroRateYears(m, y - 1);
      ZeroRateMonths(BalanceAtYear(m, 0.0, y - 1), m, 12);
    }
  }

  /** A zero annual return leaves every record with `value == invested` and
      no gains. */
  lemma ZeroReturnNoGains(input: Input)
    requires Defined(input)
    requires input.annualReturn == 0.0
    ensures forall i :: 0 <= i < |Project(input).yearlyData| ==>
      && Project(input).yearlyData[i].value == Project(input).yearlyData[i].invested
      && Project(input).yearlyData[i].gains == 0.0
  {
    var p := Project(input);
    assert MonthlyRate(input.annualReturn) == 0.0;
    forall i | 0 <= i < |p.yearlyData|
      ensures p.yearlyData[i].value == p.yearlyData[i].invested
    {
      ZeroRateYears(input.monthly, i + 1);
    }
  }

  /** A non-negative balance at least as large as what was paid in stays so
      under non-negative contributions and a non-negative rate. */
  lemma {:induction false} MonthsCoverInvested(b: Balance, m: real, rate: real, k: nat)
    requires m >= 0.0 && rate >= 0.0
    requires b.invested >= 0.0 && b.value >= b.invested
    ensures Months(b, m, rate, k).invested >= 0.0
    ensures Months(b, m, rate, k).value >= Months(b, m, rate, k).invested
  {
    if k > 0 {
      MonthsCoverInvested(b, m, rate, k - 1);
      var p := Months(b, m, rate, k - 1);
      var s := p.value + m;
      assert s * (1.0 + rate) == s + s * rate;
      MulNonNegative(s, rate);
    }
  }

  lemma {:induction false} YearsCoverInvested(m: real, rate: real, y: nat)
    requires m >= 0.0 && rate >= 0.0
    ensures BalanceAtYear(m, rate, y).invested >= 0.0
    ensures BalanceAtYear(m, rate, y).value >= BalanceAtYear(m, rate, y).invested
  {
    if y > 0 {
      YearsCoverInvested(m, rate, y - 1);
      MonthsCoverInvested(BalanceAtYear(m, rate, y - 1), m, rate, 12);
    }
  }

  /** Non-negative contributions and a non-negative return never lose money:
      every record has `value >= invested`, hence `gains >= 0`. */
  lemma GainsNonNegative(input: Input)
    requires Defined(input)
    requires input.monthly >= 0.0 && input.annualReturn >= 0.0
    ensures forall i :: 0 <= i < |Project(input).yearlyData| ==>
      && Project(input).yearlyData[i].value >= Project(input).yearlyData[i].invested
      && Project(input).yearlyData[i].gains >= 0.0
  {
    var p := Project(input);
    var rate := MonthlyRate(input.annualReturn);
    forall i | 0 <= i < |p.yearlyData|
      ensures p.yearlyData[i].value >= p.yearlyData[i].invested
    {
      YearsCoverInvested(input.monthly, rate, i + 1);
    }
  }

  /** With a positive contribution and a non-negative rate every month adds
      strictly to a non-negative value. */
  lemma {:induction false} MonthsGrow(b: Balance, m: real, rate: real, k: nat)
    requires m > 0.0 && rate >= 0.0 && b.value >= 0.0
    ensures Months(b, m, rate, k).value >= b.value
    ensures k > 0 ==> Months(b, m, rate, k).value > b.value
  {
    if k > 0 {
      MonthsGrow(b, m, rate, k - 1);
      var s := Months(b, m, rate, k - 1).value + m;
      assert s * (1.0 + rate) == s + s * rate;
      MulNonNegative(s, rate);
    }
  }

  lemma {:induction false} ValueNonNegative(m: real, rate: real, y: nat)
    requires m > 0.0 && rate >= 0.0
    ensures BalanceAtYear(m, rate, y).value >= 0.0
  {
    if y > 0 {
      ValueNonNegative(m, rate, y - 1);
      MonthsGrow(BalanceAtYear(m, rate, y - 1), m, rate, 12);
    }
  }

  /** The year-end value strictly grows from any year to any later one. */
  lemma {:induction false} ValueGrowsBetweenYears(m: real, rate: real, x: nat, y: nat)
    requires m > 0.0 && rate >= 0.0 && x < y
    ensures BalanceAtYear(m, rate, x).value < BalanceAtYear(m, rate, y).value
    decreases y
  {
    ValueNonNegative(m, rate, y - 1);
    MonthsGrow(BalanceAtYear(m, rate, y - 1), m, rate, 12);
    if x < y - 1 {
      ValueGrowsBetweenYears(m, rate, x, y - 1);
    }
  }

  /** With a positive contribution and a non-negative return, `value` is
      strictly increasing along the breakdown. */
  lemma ValueStrictlyIncreasing(input: Input)
    requires Defined(input)
    requires input.monthly > 0.0 && input.annualReturn >= 0.0
    ensures forall i, j :: 0 <= i < j < |Project(input).yearlyData| ==>
      Project(input).yearlyData[i].value < Project(input).yearlyData[j].value
  {
    var p := Project(input);
    var rate := MonthlyRate(input.annualReturn);
    forall i, j | 0 <= i < j < |p.yearlyData|
      ensures p.yearlyData[i].value < p.yearlyData[j].value
    {
      ValueGrowsBetweenYears(input.monthly, rate, i + 1, j + 1);
    }
  }

  // ---------------------------------------------------------------------
  // Closed form

  /** The nested year-and-month loop is the same as one flat loop over
      `12 * y` months. */
  lemma {:induction false} MonthsCompose(b: Balance, m: real, rate: real, j: nat, k: nat)
    ensures Months(Months(b, m, rate, j), m, rate, k) == Months(b, m, rate, j + k)
  {
    if k > 0 {
      MonthsCompose(b, m, rate, j, k - 1);
    }
  }

  lemma {:induction false} YearsAreMonths(m: real, rate: real, y: nat)
    ensures BalanceAtYear(m, rate, y) == Months(Start, m, rate, 12 * y)
  {
    if y > 0 {
      YearsAreMonths(m, rate, y - 1);
      MonthsCompose(Start, m, rate, 12 * (y - 1), 12);
    }
  }

  /** The future value of an annuity due after `k` months, multiplied through
      by the rate `r`: `value * r == m * (1 + r) * ((1 + r)^k - 1)`. */
  ghost predicate AnnuityDue(value: real, m: real, r: real, k: nat) {
    value * r == m * (1.0 + r) * (Pow(1.0 + r, k) - 1.0)
  }

  lemma {:induction false} MonthsClosedForm(m: real, rate: real, k: nat)
    ensures AnnuityDue(Months(Start, m, rate, k).value, m, rate, k)
  {
    if k > 0 {
      MonthsClosedForm(m, rate, k - 1);
      var v := Months(Start, m, rate, k - 1).value;
      var p := Pow(1.0 + rate, k - 1);
      assert v * rate == m * (1.0 + rate) * (p - 1.0);
      ClosedFormStep(v, Months(Start, m, rate, k).value, m, rate, p, Pow(1.0 + rate, k));
    } else {
      assert Pow(1.0 + rate, k) - 1.0 == 0.0;
    }
  }

  /** The algebra of one step of `MonthsClosedForm`: `x` is the next value,
      `q` the next power. */
  lemma ClosedFormStep(v: real, x: real, m: real, r: real, p: real, q: real)
    requires v * r == m * (1.0 + r) * (p - 1.0)
    requires x == (v + m) * (1.0 + r) && q == (1.0 + r) * p
    ensures x * r == m * (1.0 + r) * (q - 1.0)
  {
    var g := 1.0 + r;
    assert x * r == g * (v * r) + g * (m * r);
    assert g * (v * r) == g * (m * g * (p - 1.0));
    assert m * g * (q - 1.0) == m * g * (g * p - g) + m * g * r;
    assert g * (m * g * (p - 1.0)) == m * g * (g * p - g);
  }

  /** The standard SIP formula, the future value of an annuity due: `k`
      monthly payments of `m`, each growing at rate `r` from the start of
      its month, are worth `m * (1 + r) * ((1 + r)^k - 1) / r`. */
  function AnnuityDueValue(m: real, r: real, k: nat): real
    requires r != 0.0
  {
    m * (1.0 + r) * (Pow(1.0 + r, k) - 1.0) / r
  }

  /** At a non-zero rate the loop's value after `y` years is the closed-form
      annuity-due value over `12 * y` months. */
  lemma AnnuityDueFormula(m: real, rate: real, y: nat)
    requires rate != 0.0
    ensures BalanceAtYear(m, rate, y).value == AnnuityDueValue(m, rate, 12 * y)
  {
    YearsAreMonths(m, rate, y);
    MonthsClosedForm(m, rate, 12 * y);
    SolveForValue(Months(Start, m, rate, 12 * y).value, m, rate, 12 * y);
  }

  /** Dividing the closed form through by the non-zero rate. */
  lemma SolveForValue(x: real, m: real, r: real, k: nat)
    requires r != 0.0 && AnnuityDue(x, m, r, k)
    ensures x == AnnuityDueValue(m, r, k)
  {
    var q := Pow(1.0 + r, k);
    DivideThrough(x, m * (1.0 + r) * (q - 1.0), r);
  }

  lemma DivideThrough(x: real, y: real, r: real)
    requires r != 0.0 && x * r == y
    ensures x == y / r
  {
  }

  // ---------------------------------------------------------------------
  // Derived fields

  /** The fields of every record are tied to its value and invested amount:
      gains, the inflation discount by `(1 + inflation/100)^year`, real
      gains, and the return percentage wherever it is a number. */
  lemma RecordFields(input: Input)
    requires Defined(input)
    ensures forall i :: 0 <= i < |Project(input).yearlyData| ==>
      var rec := Project(input).yearlyData[i];
      && rec.gains == rec.value - rec.invested
      && rec.inflationAdjustedValue * Pow(InflationBase(input.inflation), rec.year)
         == rec.value
      && rec.realGains == rec.inflationAdjustedValue - rec.invested
      && (rec.returnPct.Some? ==> rec.returnPct.value * rec.invested == rec.gains * 100.0)
  {
    var records := Project(input).yearlyData;
    forall i | 0 <= i < |records|
      ensures records[i] == RecordOf(input, i + 1)
    {
    }
  }

  /** The return percentage is `NaN` exactly when nothing is contributed,
      and then value and gains are zero, so the quotient really is 0 / 0. */
  lemma ReturnPctNaN(input: Input)
    requires Defined(input)
    ensures forall i :: 0 <= i < |Project(input).yearlyData| ==>
      var rec := Project(input).yearlyData[i];
      && (rec.returnPct.None? <==> input.monthly == 0.0)
      && (input.monthly == 0.0 ==> rec.value == 0.0 && rec.gains == 0.0)
  {
    var p := Project(input);
    var rate := MonthlyRate(input.annualReturn);
    forall i | 0 <= i < |p.yearlyData|
      ensures p.yearlyData[i].returnPct.None? <==> input.monthly == 0.0
      ensures input.monthly == 0.0 ==> p.yearlyData[i].value == 0.0
    {
      InvestedAfterYears(input.monthly, rate, i + 1);
      if input.monthly == 0.0 {
        YearsAreMonths(0.0, rate, i + 1);
        ZeroContributionMonths(rate, 12 * (i + 1));
      }
    }
  }

  lemma {:induction false} ZeroContributionMonths(rate: real, k: nat)
    ensures Months(Start, 0.0, rate, k).value == 0.0
  {
    if k > 0 {
      ZeroContributionMonths(rate, k - 1);
    }
  }

  /** A non-negative inflation rate can only shrink a non-negative value, so
      real gains never exceed nominal gains. */
  lemma InflationShrinks(input: Input)
    requires input.inflation >= 0.0
    ensures forall i :: 0 <= i < |Project(input).yearlyData| ==>
      var rec := Project(input).yearlyData[i];
      rec.value >= 0.0 ==>
        rec.inflationAdjustedValue <= rec.value && rec.realGains <= rec.gains
  {
    var p := Project(input);
    forall i | 0 <= i < |p.yearlyData| && p.yearlyData[i].value >= 0.0
      ensures p.yearlyData[i].inflationAdjustedValue <= p.yearlyData[i].value
    {
      var rec := p.yearlyData[i];
      DivideByAtLeastOne(rec.value, Pow(InflationBase(input.inflation), rec.year));
    }
  }

  // ---------------------------------------------------------------------
  // A worked example

  /** Ten thousand a month for one year at 12% with 6% inflation. */
  lemma OneYearExample()
    ensures
      var p := Project(Input(10000.0, 1, 12.0, 6.0));
      && |p.yearlyData| == 1
      && p.totalInvestedAmount == 120000.0
      && p.finalValue == 128093.28043328941786781301
      && p.inflationAdjustedFinalValue * 1.06 == p.finalValue
  {
    assert MonthlyRate(12.0) == 0.01;
    ExampleSecondHalf();
    assert BalanceAtYear(10000.0, 0.01, 1) == Months(Start, 10000.0, 0.01, 12);
    assert PowInt(InflationBase(6.0), 1) == 1.06;
  }

  lemma ExampleFirstHalf()
    ensures Months(Start, 10000.0, 0.01, 6) == Balance(60000.0, 62135.35210701)
  {
    assert Months(Start, 10000.0, 0.01, 1) == Balance(10000.0, 10100.0);
    assert Months(Start, 10000.0, 0.01, 2) == Balance(20000.0, 20301.0);
    assert Months(Start, 10000.0, 0.01, 3) == Balance(30000.0, 30604.01);
    assert Months(Start, 10000.0, 0.01, 4) == Balance(40000.0, 41010.0501);
    assert Months(Start, 10000.0, 0.01, 5) == Balance(50000.0, 51520.150601);
    assert Months(Start, 10000.0, 0.01, 6) == Balance(60000.0, 62135.35210701);
  }

  lemma ExampleSecondHalf()
    ensures Months(Start, 10000.0, 0.01, 12)
         == Balance(120000.0, 128093.28043328941786781301)
  {
    ExampleFirstHalf();
    assert Months(Start, 10000.0, 0.01, 7) == Balance(70000.0, 72856.7056280801);
    assert Months(Start, 10000.0, 0.01, 8) == Balance(80000.0, 83685.272684360901);
    assert Months(Start, 10000.0, 0.01, 9) == Balance(90000.0, 94622.12541120451001);
    assert Months(Start, 10000.0, 0.01, 10) == Balance(100000.0, 105668.3466653165551101);
    assert Months(Start, 10000.0, 0.01, 11) == Balance(110000.0, 116825.030131969720661201);
    assert Months(Start, 10000.0, 0.01, 12) == Balance(120000.0, 128093.28043328941786781301);
  }
}

=== FILE: projection_loop.dfy ===
/** The projection written as the source's nested loop over years and
    months, proved to compute exactly the functional `Project`. */
module ProjectionLoop {
  import opened Numeric
  import opened Projection

  /** The inner loop: twelve months of contributions and compounding. */
  method RunYear(invested: real, value: real, m: real, monthlyRate: real)
    returns (totalInvested: real, currentValue: real)
    ensures Balance(totalInvested, currentValue)
         == YearStep(Balance(invested, value), m, monthlyRate)
  {
    totalInvested, currentValue := invested, value;
    var month := 1;
    while month <= 12
      invariant 1 <= month <= 13
      invariant Balance(totalInvested, currentValue)
             == Months(Balance(invested, value), m, monthlyRate, month - 1)
    {
      ghost var before := Months(Balance(invested, value), m, monthlyRate, month - 1);
      assert Months(Balance(invested, value), m, monthlyRate, month)
          == MonthStep(before, m, monthlyRate);
      totalInvested := totalInvested + m;
      currentValue := (currentValue + m) * (1.0 + monthlyRate);
      month := month + 1;
    }
  }

  /** The outer loop over years followed by the summary figures. */
  method ComputeProjection(input: Input) returns (r: Projected)
    requires Defined(input)
    ensures r == Project(input)
  {
    var m := input.monthly;
    var monthlyRate := input.annualReturn / 12.0 / 100.0;
    var base := 1.0 + input.inflation / 100.0;
    ghost var n: nat := if input.years < 0 then 0 else input.years;

    var yearlyData: seq<YearRecord> := [];
    var currentValue := 0.0;
    var totalInvested := 0.0;

    var year := 1;
    while year <= input.years
      invariant 1 <= year <= n + 1
      invariant yearlyData == Records(input, year - 1)
      invariant Balance(totalInvested, currentValue) == BalanceAtYear(m, monthlyRate, year - 1)
    {
      totalInvested, currentValue := RunYear(totalInvested, currentValue, m, monthlyRate);
      var gains := currentValue - totalInvested;
      var inflationAdjustedValue := currentValue / Pow(base, year);
      var realGains := inflationAdjustedValue - totalInvested;
      var record := YearRecord(year, totalInvested, currentValue, gains,
                               ReturnPct(gains, totalInvested),
                               inflationAdjustedValue, realGains);
      assert record == RecordOf(input, year);
      yearlyData := yearlyData + [record];
      year := year + 1;
    }

    assert year - 1 == n;
    var finalValue := currentValue;
    var totalInvestedAmount := totalInvested;
    var totalGains := finalValue - totalInvestedAmount;
    // A zero base only occurs with no years, where the source's quotient is 0.
    var inflationAdjustedFinalValue :=
      if base == 0.0 then 0.0 else finalValue / PowInt(base, input.years);
    var summaryRealGains := inflationAdjustedFinalValue - totalInvestedAmount;
    r := Projected(yearlyData, finalValue, totalInvestedAmount, totalGains,
                   inflationAdjustedFinalValue, summaryRealGains);
  }
}

=== FILE: text.dfy ===
/** Text helpers used by the CSV export: decimal rendering of integers,
    `Number.prototype.toFixed(2)` over exact reals, and splitting and
    joining on a separator character. */
module Text {

  predicate IsDigit(c: char) {
    '0' <= c <= '9'
  }

  predicate AllDigits(s: string) {
    forall i :: 0 <= i < |s| ==> IsDigit(s[i])
  }

  function DigitChar(d: nat): (c: char)
    requires d < 10
    ensures IsDigit(c)
  {
    ('0' as int + d) as char
  }

  function DigitValue(c: char): (d: nat)
    requires IsDigit(c)
    ensures d < 10 && DigitChar(d) == c
  {
    c as int - '0' as int
  }

  // ---------------------------------------------------------------------
  // Integers

  /** The decimal digits of `n`, most significant first, no leading zero. */
  function NatText(n: nat): (s: string)
    ensures |s| >= 1 && AllDigits(s)
    ensures |s| > 1 ==> s[0] != '0'
  {
    if n < 10 then [DigitChar(n)] else NatText(n / 10) + [DigitChar(n % 10)]
  }

  /** The value of a string of decimal digits. */
  function ParseNat(s: string): nat
    requires AllDigits(s)
  {
    if |s| == 0 then 0 else ParseNat(s[..|s| - 1]) * 10 + DigitValue(s[|s| - 1])
  }

  lemma {:induction false} ParseNatText(n: nat)
    ensures ParseNat(NatText(n)) == n
  {
    if n >= 10 {
      var s := NatText(n);
      assert s[..|s| - 1] == NatText(n / 10);
      ParseNatText(n / 10);
    }
  }

  /** How JavaScript writes an integer-valued number: a minus sign for
      negatives, then its decimal digits. */
  function IntText(i: int): (s: string)
    ensures ',' !in s && '\n' !in s && '%' !in s
  {
    if i < 0 then "-" + NatText(-i) else NatText(i)
  }

  /** A string of the shape `[-]d*`, non-empty. */
  predicate IsIntText(s: string) {
    |s| >= 1 && if s[0] == '-' then AllDigits(s[1..]) else AllDigits(s)
  }

  function ParseInt(s: string): int
    requires IsIntText(s)
  {
    if s[0] == '-' then -(ParseNat(s[1..]) as int) else ParseNat(s)
  }

  /** Reading an integer back from its text gives the integer. */
  lemma IntTextRoundTrip(i: int)
    ensures IsIntText(IntText(i)) && ParseInt(IntText(i)) == i
  {
    if i < 0 {
      assert IntText(i)[1..] == NatText(-i);
      ParseNatText(-i);
    } else {
      ParseNatText(i);
    }
  }

  // ---------------------------------------------------------------------
  // toFixed(2)

  /** The number of hundredths nearest to `a`, the larger one on a tie. */
  function RoundCents(a: real): (n: nat)
    requires a >= 0.0
    ensures n as real <= a * 100.0 + 0.5 < n as real + 1.0
  {
    (a * 100.0 + 0.5).Floor
  }

  /** `toFixed(2)` of a non-negative amount: whole part, a point, two
      digits. */
  function FixedAbs(a: real): string
    requires a >= 0.0
  {
    var n := RoundCents(a);
    NatText(n / 100) + "." + [DigitChar(n % 100 / 10), DigitChar(n % 10)]
  }

  /** A string of the shape `[-]d+.dd`. */
  predicate IsFixed2(s: string) {
    && |s| >= 4
    && s[|s| - 3] == '.'
    && AllDigits(s[|s| - 2..])
    && (if s[0] == '-' then |s| >= 5 && AllDigits(s[1..|s| - 3]) else AllDigits(s[..|s| - 3]))
  }

  /** `Number.prototype.toFixed(2)` over exact reals: the sign is taken off
      first, the magnitude is rounded to hundredths (ties to the larger),
      and a negative number keeps its `-` even when it rounds to zero. */
  function Fmt2(x: real): (s: string)
    ensures ',' !in s && '\n' !in s && '%' !in s
  {
    if x < 0.0 then "-" + FixedAbs(-x) else FixedAbs(x)
  }

  /** The value of a `[-]d+.dd` string. */
  function ParseFixed2(s: string): real
    requires IsFixed2(s)
  {
    var cents := ParseNat(s[|s| - 2..]) as real / 100.0;
    if s[0] == '-' then -(ParseNat(s[1..|s| - 3]) as real + cents)
    else ParseNat(s[..|s| - 3]) as real + cents
  }

  lemma FixedAbsValue(a: real)
    requires a >= 0.0
    ensures IsFixed2(FixedAbs(a)) && FixedAbs(a)[0] != '-'
    ensures ParseFixed2(FixedAbs(a)) == RoundCents(a) as real / 100.0
  {
    var n := RoundCents(a);
    var w := NatText(n / 100);
    var d := [DigitChar(n % 100 / 10), DigitChar(n % 10)];
    assert FixedAbs(a) == w + "." + d;
    FixedLayout(w, d);
    ParseNatText(n / 100);
    ParseTwoDigits(n % 100 / 10, n % 10);
    assert ParseNat(d) == n % 100;
    CentsSplit(n);
  }

  /** Whole part plus hundredths is the amount. */
  lemma CentsSplit(n: nat)
    ensures (n / 100) as real + (n % 100) as real / 100.0 == n as real / 100.0
  {
    assert n == 100 * (n / 100) + n % 100;
  }

  /** The layout `w.d` of a whole part `w` and two decimals `d`. */
  lemma FixedLayout(w: string, d: string)
    requires |w| >= 1 && AllDigits(w) && |d| == 2 && AllDigits(d)
    ensures IsFixed2(w + "." + d) && (w + "." + d)[0] != '-'
    ensures ParseFixed2(w + "." + d) == ParseNat(w) as real + ParseNat(d) as real / 100.0
  {
    var s := w + "." + d;
    assert s[..|s| - 3] == w;
    assert s[|s| - 2..] == d;
  }

  /** The layout `-w.d` of a negative amount. */
  lemma NegativeLayout(body: string)
    requires IsFixed2(body) && body[0] != '-'
    ensures IsFixed2("-" + body)
    ensures ParseFixed2("-" + body) == -ParseFixed2(body)
  {
    var s := "-" + body;
    assert s[1..|s| - 3] == body[..|body| - 3];
    assert s[|s| - 2..] == body[|body| - 2..];
  }

  lemma ParseTwoDigits(hi: nat, lo: nat)
    requires hi < 10 && lo < 10
    ensures ParseNat([DigitChar(hi), DigitChar(lo)]) == 10 * hi + lo
  {
    var t := [DigitChar(hi), DigitChar(lo)];
    assert t[..1] == [DigitChar(hi)];
    assert t[..1][..0] == [];
    assert ParseNat(t[..1]) == hi;
  }

  /** Reading a `toFixed(2)` text back recovers the number to within half a
      hundredth. */
  lemma Fmt2RoundTrip(x: real)
    ensures IsFixed2(Fmt2(x))
    ensures -0.005 <= ParseFixed2(Fmt2(x)) - x <= 0.005
  {
    var a := if x < 0.0 then -x else x;
    FixedAbsValue(a);
    if x < 0.0 {
      NegativeLayout(FixedAbs(a));
    }
  }

  // ---------------------------------------------------------------------
  // Separated fields and lines

  /** The pieces of `s` between occurrences of `sep`. */
  function Split(s: string, sep: char): (r: seq<string>)
    ensures |r| >= 1
    ensures forall i :: 0 <= i < |r| ==> sep !in r[i]
  {
    if |s| == 0 then [""]
    else
      var t := Split(s[1..], sep);
      if s[0] == sep then [""] + t else [[s[0]] + t[0]] + t[1..]
  }

  /** The fields of `fs` with `sep` between neighbours. */
  function Join(fs: seq<string>, sep: char): string
    requires |fs| >= 1
  {
    if |fs| == 1 then fs[0] else fs[0] + [sep] + Join(fs[1..], sep)
  }

  /** A character that is neither the separator nor in any field is not in
      their join. */
  lemma {:induction false} JoinAvoids(fs: seq<string>, sep: char, c: char)
    requires |fs| >= 1 && c != sep
    requires forall i :: 0 <= i < |fs| ==> c !in fs[i]
    ensures c !in Join(fs, sep)
  {
    if |fs| > 1 {
      JoinAvoids(fs[1..], sep, c);
    }
  }

  lemma {:induction false} SplitField(a: string, sep: char)
    requires sep !in a
    ensures Split(a, sep) == [a]
  {
    if |a| > 0 {
      SplitField(a[1..], sep);
      assert [a[0]] + a[1..] == a;
    }
  }

  lemma {:induction false} SplitFirstField(a: string, rest: string, sep: char)
    requires sep !in a
    ensures Split(a + [sep] + rest, sep) == [a] + Split(rest, sep)
  {
    if |a| == 0 {
      assert a + [sep] + rest == [sep] + rest;
      assert ([sep] + rest)[1..] == rest;
    } else {
      SplitFirstField(a[1..], rest, sep);
      assert (a + [sep] + rest)[1..] == a[1..] + [sep] + rest;
      assert [a[0]] + a[1..] == a;
    }
  }

  /** Splitting a join of separator-free fields gives the fields back. */
  lemma {:induction false} SplitJoin(fs: seq<string>, sep: char)
    requires |fs| >= 1
    requires forall i :: 0 <= i < |fs| ==> sep !in fs[i]
    ensures Split(Join(fs, sep), sep) == fs
  {
    if |fs| == 1 {
      SplitField(fs[0], sep);
    } else {
      SplitJoin(fs[1..], sep);
      SplitFirstField(fs[0], Join(fs[1..], sep), sep);
      assert [fs[0]] + fs[1..] == fs;
    }
  }

  /** Joining the pieces of a split gives the text back. */
  lemma {:induction false} JoinSplit(s: string, sep: char)
    ensures Join(Split(s, sep), sep) == s
  {
    if |s| > 0 {
      JoinSplit(s[1..], sep);
      var t := Split(s[1..], sep);
      if s[0] != sep {
        if |t| > 1 {
          assert ([[s[0]] + t[0]] + t[1..])[1..] == t[1..];
        }
        assert [s[0]] + s[1..] == s;
      } else {
        assert ([""] + t)[1..] == t;
        assert [s[0]] + s[1..] == s;
      }
    }
  }

  /** No line holds a newline of its own. */
  predicate SingleLines(ls: seq<string>) {
    forall i :: 0 <= i < |ls| ==> '\n' !in ls[i]
  }

  /** Lines each followed by a newline, as the export writes them. */
  function JoinLines(ls: seq<string>): string {
    if ls == [] then "" else ls[0] + "\n" + JoinLines(ls[1..])
  }

  /** The newline-terminated lines of a text. */
  function LinesOf(t: string): seq<string> {
    var p := Split(t, '\n');
    p[..|p| - 1]
  }

  lemma {:induction false} SplitJoinLines(ls: seq<string>)
    requires SingleLines(ls)
    ensures Split(JoinLines(ls), '\n') == ls + [""]
  {
    if ls != [] {
      SplitJoinLines(ls[1..]);
      SplitFirstField(ls[0], JoinLines(ls[1..]), '\n');
      assert [ls[0]] + (ls[1..] + [""]) == ls + [""];
    }
  }

  /** Reading the lines of a text written line by line gives the lines
      back. */
  lemma LinesRoundTrip(ls: seq<string>)
    requires SingleLines(ls)
    ensures LinesOf(JoinLines(ls)) == ls
  {
    SplitJoinLines(ls);
  }
}

=== FILE: wrappers.dfy ===
/** Optional values. In this model `None` stands for a JavaScript `NaN`
    produced by the quotient 0 / 0. */
module Wrappers {

  datatype Option<+T> = None | Some(value: T)
}
